=== FILE: README.md ===
# XAudio2 playback backend of OpenAL Soft, in Dafny

This project models the XAudio2 playback backend of OpenAL Soft
(`Alc/backends/xaudio2.c`). It covers these parts:

- the per-device session record `XAudio2Data` with its construction and
  teardown;
- the ring of four equally sized sample buffers that the mixer thread
  renders into;
- one iteration of the mixer thread's loop;
- the five entry points the device layer calls: open, close, reset, start
  and stop.

Everything the backend gets from outside is a parameter:

- the XAudio2 engine's answers (whether creating the engine or a voice
  succeeded, the queue depth, whether a submit succeeded);
- the operating system's answers (whether the mixer thread was created);
- values other parts of the library compute: `ChannelsFromDevFmt`,
  `FrameSizeFromDevFmt` and the SDK's sample-rate limits. The limits are
  taken to be positive (`Backend.RateLimitsWf`), as the SDK's constants are.

Native handles and `calloc`'d heap blocks live in a `World` value. Handles
and blocks are created with identities never used before. So "every
handle and sample buffer the session held is released" can be stated as an
equation on sets and maps. So can the one thing that is not released: the
record's own block, which the backend never frees.

Modules, in dependency order:

| file | module | models |
|---|---|---|
| `machine.dfy` | `Machine` | WORD and DWORD widths and explicit truncation, `Option` |
| `resources.dfy` | `Resources` | handles, heap blocks, pointers, `calloc`, `free`, stores |
| `wave_format.dfy` | `WaveFormat` | `WAVEFORMATEX`, how open derives it and how reset reads it back |
| `buffer_ring.dfy` | `BufferRing` | `XAudio2Data_ResetBuffers`, corrected and as written |
| `session.dfy` | `Session` | `XAudio2Data`, `_New`, `_ReleaseInterfaces`, `_Delete` |
| `playback_loop.dfy` | `PlaybackLoop` | one iteration of `PlaybackThreadProc`, round-robin over the slots |
| `backend.dfy` | `Backend` | `XAudio2OpenPlayback`, `ClosePlayback`, `ResetPlayback`, `StartPlayback`, `StopPlayback` |

Integer widths follow the C types:

- `nChannels`, `nBlockAlign`, `wBitsPerSample` are WORDs and are truncated
  to 16 bits.
- `nAvgBytesPerSec`, `BufferSize`, `UpdateSize` and the products computed
  in `UINT32`/`ALuint` are truncated to 32 bits.
- The rescale in reset uses a 64-bit product, which cannot wrap for 32-bit
  operands, and then a cast to 32 bits.

Close needs an open session. `XAudio2ClosePlayback`
(Alc/backends/xaudio2.c:217-218) passes `ExtraData` to `XAudio2Data_Delete`
without a null check, and Delete reads the record's event at line 77. So
closing a device that holds no session dereferences NULL, and
`Backend.ClosePlayback` requires a session to be present.

## Model

| member | source | states |
|---|---|---|
| `Machine.ToWord` | Alc/backends/xaudio2.c:186-187 | a value stored in a WORD field is the value modulo 2^16: it is kept exactly when it fits in 16 bits, and otherwise only its low 16 bits remain |
| `Machine.ToDword` | Alc/backends/xaudio2.c:189 | a value stored in a DWORD/UINT32 is the value modulo 2^32: it is kept exactly when it fits in 32 bits, and otherwise only its low 32 bits remain |
| `Resources.Acquire` | Alc/backends/xaudio2.c:70 | a successful native creation yields a handle of the requested kind that was not live before, and adds only it |
| `Resources.Calloc` | Alc/backends/xaudio2.c:90 | calloc yields a block that was not live before, holding n zero bytes; nothing else changes |
| `Resources.Free` | Alc/backends/xaudio2.c:86 | free of a block pointer removes exactly that block; free(NULL) changes nothing |
| `Resources.Release` | Alc/backends/xaudio2.c:103-116 | destroying a voice or releasing the engine removes exactly that handle and keeps the heap |
| `Resources.Store` | Alc/backends/xaudio2.c:142 | writing through a pointer puts the bytes at its offset, keeps the block's length, and leaves every other byte and block unchanged |
| `WaveFormat.DeriveFormat` | Alc/backends/xaudio2.c:173-190 | float gives IEEE float with 32 bits; 8-bit types give PCM with 8 bits; others give PCM with 16 bits. Rate and cbSize are copied. The channel count is kept while it fits a WORD. While the channel count is below 0x4000, a frame is exactly bits×channels/8 bytes (and non-zero for a non-zero count). Bytes per second are rate×blockAlign unless that wraps |
| `WaveFormat.GrantedSampleType` | Alc/backends/xaudio2.c:232-258 | float with 32 bits maps to Float, PCM 16 to Short and PCM 8 to UByte, each if and only if; every other tag or depth has no sample type |
| `WaveFormat.GrantedChannels` | Alc/backends/xaudio2.c:260-268 | 2 channels maps to stereo and 1 to mono, if and only if; every other count has no layout |
| `WaveFormat.GrantedNeverSignedByte` | Alc/backends/xaudio2.c:242-253 | no granted tag and depth is ever read back as signed 8-bit: 8-bit PCM always comes back as UByte |
| `WaveFormat.DeriveThenGrantedRoundTrip` | Alc/backends/xaudio2.c:173-185 | reading back the format open wrote always yields a sample type, namely the canonical one (Byte comes back as UByte, 16/32-bit integer types as Short) |
| `WaveFormat.CanonicalRederivesSameFormat` | Alc/backends/xaudio2.c:173-190 | deriving from the canonical type writes the same format, so a second open/reset cycle is stable |
| `WaveFormat.DeriveThenGrantedChannels` | Alc/backends/xaudio2.c:186-268 | mono and stereo read back unchanged, and every other count from 0 to 65535 is rejected. A larger count is read back from its low 16 bits, so it comes back as mono or stereo exactly when those bits are 1 or 2 |
| `BufferRing.ResetBuffers` | Alc/backends/xaudio2.c:83-99 | the index is always rewound. The same size changes nothing else. Size 0 nulls every slot and frees the old block. A new size frees the old block and calloc's one fresh block of 4×size zero bytes, with slot i at offset i×size. The ring stays well formed |
| `BufferRing.SlotsPartitionBlock` | Alc/backends/xaudio2.c:89-93 | every byte of the ring's block lies in exactly one slot, so the slots are disjoint and cover the block |
| `BufferRing.ResetBuffersAsWritten` | Alc/backends/xaudio2.c:83-99 | the source's version: four slots, index 0, the new size, and slot offsets computed as a 32-bit product |
| `BufferRing.AsWrittenAgreesBelowWrap` | Alc/backends/xaudio2.c:91-94 | while 3×size fits in 32 bits, the source's slots are the intended ones |
| `BufferRing.AsWrittenSlotThreeAliasesSlotZero` | Alc/backends/xaudio2.c:91-94 | with size 0x6000_0000, slot 3's offset wraps to 0x2000_0000, which lies inside slot 0, so the ring is not well formed |
| `Session.New` | Alc/backends/xaudio2.c:65-74 | a new record lives in one fresh zero-filled block and owns exactly one fresh event handle; no interfaces, empty ring, zero format, every flag clear; no other block changes |
| `Session.ReleaseInterfaces` | Alc/backends/xaudio2.c:101-118 | exactly the interfaces present are released and every interface field is nulled; nothing else changes |
| `Session.Delete` | Alc/backends/xaudio2.c:76-81 | every handle the record owned and the ring's block are released, and nothing else: the record's own block outlives it; the ring is empty afterwards |
| `PlaybackLoop.RenderBytes` | Alc/backends/xaudio2.c:142 | BufferSize / nBlockAlign frames at the device's frame size: with a frame no larger than nBlockAlign the write fits the slot, with an equal one it is less than one frame short of it, and with a larger one it overruns a slot of whole wire frames |
| `PlaybackLoop.Iterate` | Alc/backends/xaudio2.c:129-146 | killNow ends the loop. A full queue waits with nothing changed. Otherwise the current slot is submitted with BufferSize bytes and the index advances modulo 4; the submit succeeds if and only if the voice accepts it. Ending stops the voice |
| `PlaybackLoop.Step` | Alc/backends/xaudio2.c:129-149 | one pass follows Iterate's control flow, including the clean exit once killNow is set, keeps the session well formed and touches memory only when it renders, and then writes the renderer's bytes at the current slot's pointer and nothing else |
| `PlaybackLoop.KilledStepExits` | Alc/backends/xaudio2.c:129-149 | once killNow is set a pass exits without rendering, leaves memory untouched and stops the voice, for any device frame size |
| `PlaybackLoop.RenderLeavesOtherSlots` | Alc/backends/xaudio2.c:138-142 | with a device frame no larger than nBlockAlign, rendering into the current slot leaves every byte of every other slot unchanged |
| `PlaybackLoop.LargerDeviceFrameOverrunsNextSlot` | Alc/backends/xaudio2.c:138-142 | with a device frame larger than nBlockAlign, rendering into any slot but the last overwrites the first byte of the next slot |
| `PlaybackLoop.SubmitRun` | Alc/backends/xaudio2.c:129-146 | n passes in which the voice has room and accepts every buffer submit exactly n slots, keep the ring's pointers, keep the index in range and never raise killNow |
| `PlaybackLoop.RoundRobin` | Alc/backends/xaudio2.c:139-141 | n accepted submissions use the slots in reference order from the current index, and leave the index at (index+n) mod 4 |
| `PlaybackLoop.FreshRingCyclesThroughSlots` | Alc/backends/xaudio2.c:139-141 | from a rewound ring, five submissions use slots 0, 1, 2, 3, 0 |
| `Backend.OpenSession` | Alc/backends/xaudio2.c:163-212 | success holds if and only if all three creations succeed. Success stores a fresh event, engine and voices with the derived format, an empty ring and nothing running. Failure returns the live handles to what they were, clears ExtraData, and leaves the heap as it was plus the record's block |
| `Backend.OpenFailed` | Alc/backends/xaudio2.c:207-212 | the failure path deletes the half-built record, releasing exactly its handles and ring block, clears ExtraData and reports InvalidValue |
| `Backend.CreateEngine` | Alc/backends/xaudio2.c:168-190 | success holds if and only if the engine and both voices are created; it then stores the derived format and three fresh interfaces, and otherwise everything is torn down |
| `Backend.CreateVoices` | Alc/backends/xaudio2.c:192-205 | success holds if and only if both voices are created; it then adds exactly two fresh handles, and otherwise everything is torn down |
| `Backend.OpenPlayback` | Alc/backends/xaudio2.c:154-213 | a rate that is not a quantum multiple within the limits gives InvalidValue with nothing created or changed. Success holds if and only if the rate is accepted and all three creations succeed. Success stores a record with fresh event, engine and voices, the derived format, an empty ring and nothing running. A creation failure releases every handle it created and clears ExtraData; only the record's block stays, as the failure path never frees it |
| `Backend.ClosePlayback` | Alc/backends/xaudio2.c:215-220 | every handle and the ring block of the session are released and ExtraData is cleared |
| `Backend.OpenThenCloseLeaksOnlyRecord` | Alc/backends/xaudio2.c:154-220 | open followed by close leaves the live handles exactly as before, and frees every sample buffer; exactly one block more than before stays live, the record calloc'd at line 67, which neither Delete nor close frees |
| `Backend.Rescaled` | Alc/backends/xaudio2.c:226-227 | below the cast's wrap, the rescaled update size is the floor of U×S/F; at an unchanged rate it is U |
| `Backend.SpreadUpdateSize` | Alc/backends/xaudio2.c:228 | while the sum does not wrap, the new update size is the total period divided by 4, rounded up |
| `Backend.ResetPlayback` | Alc/backends/xaudio2.c:222-272 | NumUpdates becomes 4 and Frequency the granted rate. Success holds if and only if both the sample type and the layout map back, and the device gets them. On an unmappable type neither format field changes; on an unmappable layout the type has already been written |
| `Backend.ResetKeepsPeriodAtSameRate` | Alc/backends/xaudio2.c:226-229 | at the rate the device asked for, 4 × the new update size covers U×N and exceeds it by less than 4 |
| `Backend.OpenThenResetRoundTrip` | Alc/backends/xaudio2.c:173-268 | open then reset keeps the rate, gives the canonical sample type, returns mono and stereo unchanged and rejects every other count from 0 to 65535. Reset succeeds exactly when the count's low 16 bits are 1 or 2 |
| `Backend.OpenThenResetFrameIsBlockAlign` | Alc/backends/xaudio2.c:173-268 | after open and a successful reset of a mono or stereo device, the device frame (channels × bytes per sample of the chosen type) equals nBlockAlign |
| `Backend.SlotBytes` | Alc/backends/xaudio2.c:280-281 | without wrap, BufferSize is UpdateSize×NumUpdates/4 frames times the frame size |
| `Backend.SlotBytesAfterReset` | Alc/backends/xaudio2.c:228-281 | after a reset, each slot holds exactly UpdateSize frames |
| `Backend.StartPlayback` | Alc/backends/xaudio2.c:274-299 | the ring is resized to BufferSize and rewound, and stays so whatever fails later. Success holds if and only if engine, voice and thread all start. The voice starts only after the engine. killNow is cleared exactly when both run; otherwise it and the thread are untouched |
| `Backend.StartSlotHoldsOneUpdate` | Alc/backends/xaudio2.c:280-281 | after a reset, with the frame size equal to the block alignment, each slot renders exactly UpdateSize frames |
| `Backend.Join` | Alc/backends/xaudio2.c:148-149 | after the join no thread runs; a thread that was running stopped the voice on its way out; nothing else changes |
| `Backend.StopPlayback` | Alc/backends/xaudio2.c:301-315 | with killNow set, nothing changes. Otherwise killNow is raised, the thread joined, the engine stopped, and the ring emptied with its block freed, while handles and format are kept; nothing else in the record changes |
| `Backend.StopIdempotent` | Alc/backends/xaudio2.c:305-309 | a second stop changes nothing |
| `Backend.StopBeforeStartActs` | Alc/backends/xaudio2.c:305-312 | a freshly opened device has killNow clear, so a stop before any start is not a no-op |
| `Backend.StartThenStopFreesRing` | Alc/backends/xaudio2.c:280-315 | from an empty ring, start then stop gives every heap block back, whatever start's replies were |
| `Backend.FailedRestartKeepsRing` | Alc/backends/xaudio2.c:286-306 | after a stop, a restart whose engine fails leaves killNow raised, so the next stop returns at once and the new ring stays allocated |
| `Backend.StereoFloatScenario` | Alc/backends/xaudio2.c:154-299 | 48 kHz stereo float with 4 updates of 256 frames gives 8-byte frames, 2048-byte slots in an 8192-byte block, and 256 frames per slot |

## Left out

- COM calls into XAudio2 (create, start, stop, submit, get state, destroy, release): the model has no code for them; oracle parameters carry their results.
- Threading: the mixer thread is modelled one iteration at a time, and `althrd_join` as the thread's exit path. Interleavings, the volatile flag and the buffer-end event's wake-ups are not modelled; waiting is a step that changes nothing.
- `aluMixData` is outside the backend: the rendered bytes are a parameter, BufferSize / nBlockAlign frames at the device's frame size.
- `ChannelsFromDevFmt`, `FrameSizeFromDevFmt` and the SDK's `XAUDIO2_*` rate constants are not part of this model. They are parameters.
- `SetDefaultWFXChannelOrder` (called at the end of a successful reset) is not part of this model. The surround layouts are one abstract constructor, since the library's channel enum is not part of this model either.
- `calloc` failure: the source never checks for it, and the model's `Calloc` always succeeds.
- The record's block (`Session.RECORD_BYTES`) has length 0 in the model. Its fields are the `XAudio2Data` value, and `sizeof(XAudio2Data)` depends on the platform. The block stands only for the allocation, which `XAudio2Data_Delete` never frees: every open leaks it, and the model shows that.
- The callback table `lpVtbl` and its callbacks are not modelled. Only `OnBufferEnd` does anything, and it sets the event.
- `alc_xaudio2_init`, `alc_xaudio2_deinit`, `alc_xaudio2_probe`, the SDK header workaround and `OpenAL32/Include/alError.h` (the context error-setting helpers `alSetError`, `alDebugBreak`, `TrapALError` and the `SET_ERROR_AND_RETURN` macros, none of which this backend uses) are not modelled: they hold no backend logic.
- Backend.ResetPlayback: the `ERR` diagnostics reset logs on its failure paths (Alc/backends/xaudio2.c:238, 250, 256 and 266) are not modelled. Logging changes no state the backend or device keeps, and the `ERR` macro is not part of this model.
- Backend.ClosePlayback: requires a session, because the source's close dereferences `ExtraData` without a check. A second close is undefined in the source, not a no-op.
- Backend.StopPlayback: the join is modelled as if `thread` were valid. Two cases join a thread that was never created, which the model cannot express: a stop before any start joins a zero-initialised handle, and a stop after a start whose `althrd_create` failed goes ahead, because start had already cleared `killNow`.
- Backend.SpreadUpdateSize: stated only while `UpdateSize*NumUpdates+3` fits in 32 bits; beyond that, the wrapped value is computed but nothing is claimed about it.
- Backend.Rescaled: states the floor only below the 32-bit cast's wrap.
- Session.New: `CreateEventEx` is taken to succeed. The source stores its result without a check, so a NULL event would go unnoticed until the thread waits on it.
- Backend.StartPlayback: sizes the ring with the corrected `ResetBuffers`. For a BufferSize above 0x5555_5555 the source's slots overlap instead (see Findings). Stop and Delete only ever shrink the ring to size 0, where both versions agree.
- Backend.SlotBytes: stated only while `UpdateSize*NumUpdates` and the frame product fit in 32 bits; beyond that, the wrapped value is computed but nothing is claimed about it.
- PlaybackLoop.Step: a pass that renders must stay inside the ring's block. A write past its end is a heap overflow the model cannot express. Passes that exit or wait carry no such requirement.
- PlaybackLoop.RenderBytes: the device's frame size is a parameter. It equals nBlockAlign only because the device layer runs a successful reset before every start (`Backend.OpenThenResetFrameIsBlockAlign`). Nothing in this backend checks that, and the model does not require it.
- PlaybackLoop.RenderLeavesOtherSlots: holds only for a device frame no larger than nBlockAlign, which a reset before start guarantees. A start without a reset in between can overrun the next slot (`PlaybackLoop.LargerDeviceFrameOverrunsNextSlot`).
- Backend.OpenPlayback: does not state that the four owned handles are distinct as a count. It states that they are fresh and of four different kinds.

## Findings

| source | as written | input that shows it | evidently intended | confidence | as-written member | corrected member |
|---|---|---|---|---|---|---|
| Alc/backends/xaudio2.c:91-94 | slot i starts at `Buffers[0] + i*NewSize`, where `i*NewSize` is an unsigned 32-bit product | `NewSize = 0x6000_0000`: slot 3's offset wraps to `0x2000_0000`, inside slot 0, while the block is `0x1_8000_0000` bytes | slot i starts at byte i×NewSize of the block, so the four slots are disjoint | medium; not executed (it needs a 6 GiB calloc to succeed on a 64-bit build) | `BufferRing.ResetBuffersAsWritten`, `BufferRing.AsWrittenSlotThreeAliasesSlotZero` | `BufferRing.ResetBuffers`, `BufferRing.SlotsPartitionBlock` |

=== FILE: backend.dfy ===
/** The five backend entry points the device layer calls through the
    XAudio2 function table (Alc/backends/xaudio2.c:154-315): open, close,
    reset, start and stop. The device is the part of ALCdevice the backend
    reads and writes. What XAudio2 answers (whether creating the engine or a
    voice succeeds, whether starting them succeeds) and whether the mixer
    thread could be created are oracle parameters. So are the values other
    parts of the library compute: the channel count of the device layout
    (ChannelsFromDevFmt), the frame size (FrameSizeFromDevFmt) and the
    SDK's sample-rate limits. */
module Backend {
  import opened Machine
  import opened Resources
  import opened WaveFormat
  import opened BufferRing
  import opened Session
  import opened PlaybackLoop

  datatype AlcError = AlcNoError | AlcInvalidValue

  /** The fields of ALCdevice this backend uses; ExtraData holds the
      session record, or NULL. */
  datatype Device = Device(
    frequency: u32,
    updateSize: u32,
    numUpdates: u32,
    fmtType: DevFmtType,
    fmtChans: DevFmtChannels,
    extraData: Option<XAudio2Data>)

  datatype DeviceWorld = DeviceWorld(device: Device, world: World)

  /** XAUDIO2_QUANTUM_DENOMINATOR, XAUDIO2_MIN_SAMPLE_RATE and
      XAUDIO2_MAX_SAMPLE_RATE of the SDK header. */
  datatype RateLimits = RateLimits(quantum: u32, minRate: u32, maxRate: u32)

  /** The SDK's constants are positive: the quantum denominator divides
      rates, and the lowest rate the engine takes is above zero. */
  predicate RateLimitsWf(lim: RateLimits)
  {
    lim.quantum > 0 && lim.minRate > 0
  }

  /** The rate open accepts: a whole multiple of the quantum denominator,
      within the engine's limits. */
  predicate RateAccepted(rate: u32, lim: RateLimits)
    requires RateLimitsWf(lim)
  {
    rate % lim.quantum == 0 && lim.minRate <= rate <= lim.maxRate
  }

  // ---- XAudio2OpenPlayback ---------------------------------------------

  /** Whether XAudio2Create, CreateMasteringVoice and CreateSourceVoice
      succeed, in the order open calls them. */
  datatype OpenReplies = OpenReplies(engineCreated: bool, masteringVoiceCreated: bool, sourceVoiceCreated: bool)

  predicate AllCreated(replies: OpenReplies)
  {
    replies.engineCreated && replies.masteringVoiceCreated && replies.sourceVoiceCreated
  }

  datatype Opened = Opened(error: AlcError, device: Device, world: World)

  /** The failure path of open: delete the half-built record and clear
      ExtraData. */
  function OpenFailed(dev: Device, s: SessionWorld): (r: Opened)
    requires SessionWf(s.data, s.world)
    ensures r.error == AlcInvalidValue && r.device == dev.(extraData := None)
    ensures WorldWf(r.world)
    ensures r.world.handles == s.world.handles - Owned(s.data)
    ensures r.world.blocks == s.world.blocks - OwnedBlocks(s.data.ring)
  {
    var del := Delete(s.data, s.world);
    Opened(AlcInvalidValue, dev.(extraData := None), del.world)
  }

  /** XAudio2OpenPlayback. `channels` is ChannelsFromDevFmt of the device
      layout. */
  function OpenPlayback(dev: Device, w: World, lim: RateLimits, channels: u32, replies: OpenReplies): (r: Opened)
    requires WorldWf(w) && RateLimitsWf(lim)
    ensures WorldWf(r.world)
    // open only ever writes ExtraData
    ensures r.device == dev.(extraData := r.device.extraData)
    // a rate XAudio2 cannot take: refused before anything is created
    ensures !RateAccepted(dev.frequency, lim) ==> r == Opened(AlcInvalidValue, dev, w)
    ensures r.error == AlcNoError <==> RateAccepted(dev.frequency, lim) && AllCreated(replies)
    ensures r.error != AlcNoError ==> r.error == AlcInvalidValue
    // success: a record holding a fresh event and three fresh interfaces,
    // the derived wire format, an empty ring, and nothing running
    ensures r.error == AlcNoError ==>
              && r.device.extraData.Some?
              && var d := r.device.extraData.value;
              && SessionWf(d, r.world)
              && d.engine.Some? && d.masteringVoice.Some? && d.sourceVoice.Some?
              && Owned(d) !! w.handles
              && r.world.handles == w.handles + Owned(d)
              && d.record == w.next && r.world.blocks == WithRecord(w)
              && d.format == DeriveFormat(dev.fmtType, channels, dev.frequency)
              && d.ring == EmptyRing
              && !d.killNow && !d.threadRunning && !d.engineStarted && !d.voiceStarted
    // a creation failure: every handle created so far is released and
    // ExtraData is cleared, but the record's block is never freed
    ensures RateAccepted(dev.frequency, lim) && !AllCreated(replies) ==>
              && r.device.extraData == None
              && r.world.handles == w.handles
              && r.world.blocks == WithRecord(w)
  {
    if !RateAccepted(dev.frequency, lim) then
      Opened(AlcInvalidValue, dev, w)
    else
      OpenSession(dev, w, channels, replies)
  }

  /** Open once the rate is accepted: a new record, then the engine, then
      the voices. */
  function OpenSession(dev: Device, w: World, channels: u32, replies: OpenReplies): (r: Opened)
    requires WorldWf(w)
    ensures WorldWf(r.world)
    ensures r.device == dev.(extraData := r.device.extraData)
    ensures r.error == AlcNoError <==> AllCreated(replies)
    ensures r.error != AlcNoError ==>
              && r.error == AlcInvalidValue
              && r.device.extraData == None
              && r.world.handles == w.handles
              && r.world.blocks == WithRecord(w)
    ensures r.error == AlcNoError ==>
              && r.device.extraData.Some?
              && var d := r.device.extraData.value;
              && SessionWf(d, r.world)
              && d.engine.Some? && d.masteringVoice.Some? && d.sourceVoice.Some?
              && Owned(d) !! w.handles
              && r.world.handles == w.handles + Owned(d)
              && d.record == w.next && r.world.blocks == WithRecord(w)
              && d.format == DeriveFormat(dev.fmtType, channels, dev.frequency)
              && d.ring == EmptyRing
              && !d.killNow && !d.threadRunning && !d.engineStarted && !d.voiceStarted
  {
    var s := New(w);
    var r := CreateEngine(dev, s, DeriveFormat(dev.fmtType, channels, dev.frequency), replies);
    if r.error == AlcNoError then
      var d := r.device.extraData.value;
      assert Owned(d) == Owned(s.data) + Interfaces(d);
      r
    else
      r
  }

  /** The part of open after the record exists: create the engine and
      store the wire format, then go on to the voices, or tear everything
      down if the engine cannot be created. */
  function CreateEngine(dev: Device, s: SessionWorld, format: WaveFormatEx, replies: OpenReplies): (r: Opened)
    requires SessionWf(s.data, s.world)
    requires Interfaces(s.data) == {}
    ensures WorldWf(r.world)
    ensures r.device == dev.(extraData := r.device.extraData)
    ensures r.error == AlcNoError <==> AllCreated(replies)
    ensures r.error != AlcNoError ==>
              && r.error == AlcInvalidValue
              && r.device.extraData == None
              && r.world.handles == s.world.handles - Owned(s.data)
              && r.world.blocks == s.world.blocks - OwnedBlocks(s.data.ring)
    ensures r.error == AlcNoError ==>
              && r.device.extraData.Some?
              && var d := r.device.extraData.value;
              && SessionWf(d, r.world)
              && d.engine.Some? && d.masteringVoice.Some? && d.sourceVoice.Some?
              && d == s.data.(engine := d.engine, masteringVoice := d.masteringVoice, sourceVoice := d.sourceVoice,
                              format := format)
              && Interfaces(d) !! s.world.handles
              && r.world.handles == s.world.handles + Interfaces(d)
              && r.world.blocks == s.world.blocks
  {
    if !replies.engineCreated then
      OpenFailed(dev, s)
    else
      var e := Acquire(s.world, EngineHandle);
      var d1 := s.data.(engine := Some(e.handle), format := format);
      assert Interfaces(d1) == {e.handle};
      assert Owned(d1) == Owned(s.data) + {e.handle};
      var r := CreateVoices(dev, SessionWorld(d1, e.world), replies);
      if r.error == AlcNoError then
        var d := r.device.extraData.value;
        assert Interfaces(d) == {e.handle, d.masteringVoice.value, d.sourceVoice.value};
        r
      else
        assert e.world.handles - Owned(d1) == s.world.handles - Owned(s.data);
        r
  }

  /** The part of open after the engine exists: create the mastering voice
      and then the source voice, or tear everything down on the first
      failure. */
  function CreateVoices(dev: Device, s: SessionWorld, replies: OpenReplies): (r: Opened)
    requires SessionWf(s.data, s.world)
    requires s.data.masteringVoice.None? && s.data.sourceVoice.None?
    ensures WorldWf(r.world)
    ensures r.device == dev.(extraData := r.device.extraData)
    ensures r.error == AlcNoError <==> replies.masteringVoiceCreated && replies.sourceVoiceCreated
    ensures r.error != AlcNoError ==>
              && r.error == AlcInvalidValue
              && r.device.extraData == None
              && r.world.handles == s.world.handles - Owned(s.data)
              && r.world.blocks == s.world.blocks - OwnedBlocks(s.data.ring)
    ensures r.error == AlcNoError ==>
              && r.device.extraData.Some?
              && var d := r.device.extraData.value;
              && SessionWf(d, r.world)
              && d.masteringVoice.Some? && d.sourceVoice.Some?
              && d == s.data.(masteringVoice := d.masteringVoice, sourceVoice := d.sourceVoice)
              && d.masteringVoice.value !in s.world.handles
              && d.sourceVoice.value !in s.world.handles
              && r.world.handles == s.world.handles + {d.masteringVoice.value, d.sourceVoice.value}
              && r.world.blocks == s.world.blocks
  {
    if !replies.masteringVoiceCreated then
      OpenFailed(dev, s)
    else
      var m := Acquire(s.world, MasteringVoiceHandle);
      var d2 := s.data.(masteringVoice := Some(m.handle));
      assert Owned(d2) == Owned(s.data) + {m.handle};
      if !replies.sourceVoiceCreated then
        OpenFailed(dev, SessionWorld(d2, m.world))
      else
        var v := Acquire(m.world, SourceVoiceHandle);
        var d3 := d2.(sourceVoice := Some(v.handle));
        assert Interfaces(d3) == Interfaces(d2) + {v.handle};
        Opened(AlcNoError, dev.(extraData := Some(d3)), v.world)
  }

  // ---- XAudio2ClosePlayback --------------------------------------------

  /** XAudio2ClosePlayback: delete the record and clear ExtraData. */
  function ClosePlayback(dev: Device, w: World): (r: DeviceWorld)
    requires dev.extraData.Some? && SessionWf(dev.extraData.value, w)
    ensures WorldWf(r.world)
    ensures r.device == dev.(extraData := None)
    ensures r.world.handles == w.handles - Owned(dev.extraData.value)
    ensures r.world.blocks == w.blocks - OwnedBlocks(dev.extraData.value.ring)
  {
    var del := Delete(dev.extraData.value, w);
    DeviceWorld(dev.(extraData := None), del.world)
  }

  /** Open followed by close gives back every handle and every sample
      buffer. Exactly one block stays behind: the record, which neither
      XAudio2Data_Delete nor close frees. */
  lemma OpenThenCloseLeaksOnlyRecord(dev: Device, w: World, lim: RateLimits, channels: u32, replies: OpenReplies)
    requires WorldWf(w) && RateLimitsWf(lim)
    requires RateAccepted(dev.frequency, lim) && AllCreated(replies)
    ensures var o := OpenPlayback(dev, w, lim, channels, replies);
      && o.device.extraData.Some?
      && var c := ClosePlayback(o.device, o.world);
      && c.world.handles == w.handles
      && var rec := o.device.extraData.value.record;
      && rec !in w.blocks
      && c.world.blocks == w.blocks[rec := Zeros(RECORD_BYTES)]
      && c.device == dev.(extraData := None)
  {
    var o := OpenPlayback(dev, w, lim, channels, replies);
    var d := o.device.extraData.value;
    assert OwnedBlocks(d.ring) == {};
  }

  // ---- XAudio2ResetPlayback --------------------------------------------

  /** The update size rescaled from the device rate to the granted rate:
      a 64-bit product divided by the device rate, then cast to ALuint. */
  function Rescaled(updateSize: u32, granted: u32, frequency: u32): (r: u32)
    requires frequency > 0
    // below the cast's wrap it is the floor of U*S/F
    ensures updateSize * granted / frequency < DWORD_MODULUS ==>
              r * frequency <= updateSize * granted < (r + 1) * frequency
    ensures granted == frequency ==> r == updateSize
  {
    var r := ToDword(updateSize * granted / frequency);
    RescaleBrackets(updateSize, granted, frequency, r);
    r
  }

  /** The floor of U*S/F, kept by a cast that does not wrap, brackets U*S,
      and is U itself when S is F. */
  lemma RescaleBrackets(u: u32, g: u32, f: u32, r: nat)
    requires f > 0
    requires u * g / f < DWORD_MODULUS ==> r == u * g / f
    ensures u * g / f < DWORD_MODULUS ==> r * f <= u * g < (r + 1) * f
    ensures g == f ==> r == u
  {
    var product := u * g;
    FloorDiv(product, f);
    if g == f {
      DivExact(u, f);
    }
  }

  lemma DivExact(a: nat, b: nat)
    requires b > 0
    ensures a * b / b == a
  {
    var q := a * b / b;
    FloorDiv(a * b, b);
    if q < a {
      MulMonotone(q + 1, a, b);
    } else if q > a {
      MulMonotone(a + 1, q, b);
    }
  }

  /** The total period rescaled at the granted rate, spread over
      NUM_BUFFERS updates and rounded up, in 32-bit arithmetic. */
  function SpreadUpdateSize(scaled: u32, numUpdates: u32): (r: u32)
    // the rounded-up quotient, while the sum does not wrap
    ensures scaled * numUpdates + 3 < DWORD_MODULUS ==>
              scaled * numUpdates <= r * NUM_BUFFERS < scaled * numUpdates + NUM_BUFFERS
  {
    var sum := ToDword(scaled * numUpdates + 3);
    sum / NUM_BUFFERS
  }

  datatype Reset = Reset(ok: bool, device: Device)

  /** XAudio2ResetPlayback: take over the granted rate and rescale the
      period into NUM_BUFFERS updates, then read the device sample type and
      channel layout back from the wire format, failing on anything else
      than 8- or 16-bit PCM or 32-bit float in mono or stereo. The timing
      fields, and a read-back sample type, are written before a later check
      can fail, and stay written. */
  function ResetPlayback(dev: Device): (r: Reset)
    requires dev.extraData.Some? && dev.frequency > 0
    ensures r.device.extraData == dev.extraData
    ensures var f := dev.extraData.value.format;
      && r.device.numUpdates == NUM_BUFFERS
      && r.device.frequency == f.samplesPerSec
      && r.device.updateSize == SpreadUpdateSize(Rescaled(dev.updateSize, f.samplesPerSec, dev.frequency), dev.numUpdates)
      // success exactly when both the sample type and the layout map back
      && (r.ok <==> GrantedSampleType(f.formatTag, f.bitsPerSample).Some? && GrantedChannels(f.channels).Some?)
      && (r.ok ==> r.device.fmtType == GrantedSampleType(f.formatTag, f.bitsPerSample).value
                   && r.device.fmtChans == GrantedChannels(f.channels).value)
      // an unmappable sample type fails before either format field is written
      && (GrantedSampleType(f.formatTag, f.bitsPerSample).None? ==>
            r.device.fmtType == dev.fmtType && r.device.fmtChans == dev.fmtChans)
      // an unmappable layout fails after the sample type is written
      && (GrantedSampleType(f.formatTag, f.bitsPerSample).Some? && GrantedChannels(f.channels).None? ==>
            r.device.fmtType == GrantedSampleType(f.formatTag, f.bitsPerSample).value
            && r.device.fmtChans == dev.fmtChans)
  {
    var f := dev.extraData.value.format;
    var scaled := Rescaled(dev.updateSize, f.samplesPerSec, dev.frequency);
    var timed := dev.(updateSize := SpreadUpdateSize(scaled, dev.numUpdates),
                      numUpdates := NUM_BUFFERS, frequency := f.samplesPerSec);
    match GrantedSampleType(f.formatTag, f.bitsPerSample)
    case None => Reset(false, timed)
    case Some(t) =>
      var typed := timed.(fmtType := t);
      match GrantedChannels(f.channels)
      case None => Reset(false, typed)
      case Some(c) => Reset(true, typed.(fmtChans := c))
  }

  /** When the granted rate is the one the device asked for, reset turns
      U updates of N frames into NUM_BUFFERS updates of at least U*N/4
      frames, rounded up. */
  lemma ResetKeepsPeriodAtSameRate(dev: Device)
    requires dev.extraData.Some? && dev.frequency > 0
    requires dev.extraData.value.format.samplesPerSec == dev.frequency
    requires dev.updateSize * dev.numUpdates + 3 < DWORD_MODULUS
    ensures var u := ResetPlayback(dev).device.updateSize;
      dev.updateSize * dev.numUpdates <= u * NUM_BUFFERS < dev.updateSize * dev.numUpdates + NUM_BUFFERS
  {
  }

  /** Open then reset: the rate is kept, the sample type comes back in its
      canonical form, mono and stereo come back as they were, and any other
      channel count makes reset fail. */
  lemma OpenThenResetRoundTrip(dev: Device, w: World, lim: RateLimits, channels: u32, replies: OpenReplies)
    requires WorldWf(w) && RateLimitsWf(lim)
    requires RateAccepted(dev.frequency, lim) && AllCreated(replies)
    ensures var o := OpenPlayback(dev, w, lim, channels, replies);
      && o.device.extraData.Some?
      && var s := ResetPlayback(o.device);
      && s.device.frequency == dev.frequency
      && s.device.numUpdates == NUM_BUFFERS
      && s.device.fmtType == Canonical(dev.fmtType)
      && (channels == 1 ==> s.ok && s.device.fmtChans == DevFmtMono)
      && (channels == 2 ==> s.ok && s.device.fmtChans == DevFmtStereo)
      && (channels != 1 && channels != 2 && channels < WORD_MODULUS ==> !s.ok && s.device.fmtChans == dev.fmtChans)
      // nChannels keeps the low 16 bits: reset succeeds exactly for those of 1 and 2
      && (s.ok <==> channels % WORD_MODULUS == 1 || channels % WORD_MODULUS == 2)
  {
    DeriveThenGrantedRoundTrip(dev.fmtType, channels, dev.frequency);
    DeriveThenGrantedChannels(dev.fmtType, channels, dev.frequency);
  }

  /** After open and a successful reset of a mono or stereo device, the
      device's own frame (ChannelsFromDevFmt × BytesFromDevFmt of the
      layout and type reset chose) is exactly nBlockAlign, so the renderer
      writes whole wire frames into each slot. */
  lemma OpenThenResetFrameIsBlockAlign(dev: Device, w: World, lim: RateLimits, channels: u32, replies: OpenReplies)
    requires WorldWf(w) && RateLimitsWf(lim)
    requires RateAccepted(dev.frequency, lim) && AllCreated(replies)
    requires channels == 1 || channels == 2
    ensures var o := OpenPlayback(dev, w, lim, channels, replies);
      && o.device.extraData.Some?
      && var s := ResetPlayback(o.device);
      && s.ok
      && (s.device.fmtChans == DevFmtMono <==> channels == 1)
      && SampleBytes(s.device.fmtType) * channels == o.device.extraData.value.format.blockAlign
  {
    OpenThenResetRoundTrip(dev, w, lim, channels, replies);
  }

  // ---- XAudio2StartPlayback --------------------------------------------

  /** Whether StartEngine and the source voice's Start succeed, and
      whether the mixer thread could be created. */
  datatype StartReplies = StartReplies(engineStarts: bool, voiceStarts: bool, threadCreated: bool)

  datatype Started = Started(ok: bool, device: Device, world: World)

  /** BufferSize: the period divided over NUM_BUFFERS slots, in frames,
      times the frame size, in UINT32 arithmetic. */
  function SlotBytes(updateSize: u32, numUpdates: u32, frameSize: u32): (r: u32)
    ensures updateSize * numUpdates < DWORD_MODULUS && updateSize * numUpdates / NUM_BUFFERS * frameSize < DWORD_MODULUS ==>
              r == updateSize * numUpdates / NUM_BUFFERS * frameSize
  {
    var frames := ToDword(updateSize * numUpdates) / NUM_BUFFERS;
    ToDword(frames * frameSize)
  }

  /** After a reset there are exactly NUM_BUFFERS updates, so each slot
      holds one update of frames. */
  lemma SlotBytesAfterReset(updateSize: u32, frameSize: u32)
    requires updateSize * NUM_BUFFERS < DWORD_MODULUS && updateSize * frameSize < DWORD_MODULUS
    ensures SlotBytes(updateSize, NUM_BUFFERS, frameSize) == updateSize * frameSize
  {
    DivExact(updateSize, NUM_BUFFERS);
  }

  /** XAudio2StartPlayback. `frameSize` is FrameSizeFromDevFmt of the
      device's layout and sample type. The ring is resized first and stays
      resized whatever fails later; killNow is cleared only once both the
      engine and the voice run. */
  function StartPlayback(dev: Device, w: World, frameSize: u32, replies: StartReplies): (r: Started)
    requires dev.extraData.Some? && SessionWf(dev.extraData.value, w)
    requires dev.extraData.value.engine.Some? && dev.extraData.value.sourceVoice.Some?
    ensures r.device == dev.(extraData := r.device.extraData) && r.device.extraData.Some?
    ensures var d := dev.extraData.value;
      var d' := r.device.extraData.value;
      var size := SlotBytes(dev.updateSize, dev.numUpdates, frameSize);
      && SessionWf(d', r.world)
      && r.world.handles == w.handles
      // the ring is resized to BufferSize and rewound, as ResetBuffers does
      && d'.ring == ResetBuffers(d.ring, w, size).ring
      && r.world == ResetBuffers(d.ring, w, size).world
      && d' == d.(ring := d'.ring, engineStarted := d'.engineStarted, voiceStarted := d'.voiceStarted,
                  killNow := d'.killNow, threadRunning := d'.threadRunning)
      && (r.ok <==> replies.engineStarts && replies.voiceStarts && replies.threadCreated)
      && (d'.engineStarted <==> d.engineStarted || replies.engineStarts)
      // the voice is started only after the engine
      && (d'.voiceStarted <==> d.voiceStarted || (replies.engineStarts && replies.voiceStarts))
      && (replies.engineStarts && replies.voiceStarts ==> !d'.killNow)
      && (!(replies.engineStarts && replies.voiceStarts) ==> d'.killNow == d.killNow && d'.threadRunning == d.threadRunning)
      && (replies.engineStarts && replies.voiceStarts ==> (d'.threadRunning <==> d.threadRunning || replies.threadCreated))
  {
    var d := dev.extraData.value;
    var size := SlotBytes(dev.updateSize, dev.numUpdates, frameSize);
    var rr := ResetBuffers(d.ring, w, size);
    var d1 := d.(ring := rr.ring);
    if !replies.engineStarts then
      Started(false, dev.(extraData := Some(d1)), rr.world)
    else
      var d2 := d1.(engineStarted := true);
      if !replies.voiceStarts then
        Started(false, dev.(extraData := Some(d2)), rr.world)
      else
        var d3 := d2.(voiceStarted := true, killNow := false);
        if !replies.threadCreated then
          Started(false, dev.(extraData := Some(d3)), rr.world)
        else
          Started(true, dev.(extraData := Some(d3.(threadRunning := true))), rr.world)
  }

  /** After a reset (NUM_BUFFERS updates) and with the frame size matching
      the wire format's block alignment, every slot the mixer thread fills
      holds exactly one update of frames. */
  lemma StartSlotHoldsOneUpdate(dev: Device, w: World, frameSize: u32, replies: StartReplies)
    requires dev.extraData.Some? && SessionWf(dev.extraData.value, w)
    requires dev.extraData.value.engine.Some? && dev.extraData.value.sourceVoice.Some?
    requires dev.numUpdates == NUM_BUFFERS
    requires frameSize > 0 && dev.extraData.value.format.blockAlign == frameSize
    requires dev.updateSize * NUM_BUFFERS < DWORD_MODULUS && dev.updateSize * frameSize < DWORD_MODULUS
    ensures var s := StartPlayback(dev, w, frameSize, replies);
      && s.device.extraData.value.ring.size == dev.updateSize * frameSize
      && FramesPerSlot(s.device.extraData.value) == dev.updateSize
  {
    SlotBytesAfterReset(dev.updateSize, frameSize);
    DivExact(dev.updateSize, frameSize);
  }

  // ---- XAudio2StopPlayback ---------------------------------------------

  /** althrd_join: once it returns, the thread has left its loop, and a
      thread that was still running stopped the source voice on its way
      out. */
  function Join(d: XAudio2Data): (r: XAudio2Data)
    ensures !r.threadRunning
    ensures d.threadRunning ==> !r.voiceStarted
    ensures !d.threadRunning ==> r == d
    ensures r == d.(threadRunning := false, voiceStarted := r.voiceStarted)
  {
    if d.threadRunning then StopVoice(d).(threadRunning := false) else d
  }

  /** XAudio2StopPlayback: nothing if a stop is already under way or done;
      otherwise raise killNow, join the thread, stop the engine and free the
      ring. The guard is killNow alone, so a stop on a device that was
      opened but never started still goes ahead. */
  function StopPlayback(dev: Device, w: World): (r: DeviceWorld)
    requires dev.extraData.Some? && SessionWf(dev.extraData.value, w)
    ensures r.device == dev.(extraData := r.device.extraData) && r.device.extraData.Some?
    ensures SessionWf(r.device.extraData.value, r.world)
    ensures dev.extraData.value.killNow ==> r == DeviceWorld(dev, w)
    ensures var d := dev.extraData.value;
      var d' := r.device.extraData.value;
      !d.killNow ==>
        && d'.killNow && !d'.threadRunning && !d'.engineStarted
        && (d.threadRunning ==> !d'.voiceStarted)
        && d'.ring.size == 0 && d'.ring.buffers == NullSlots() && d'.ring.index == 0
        && r.world.handles == w.handles
        && r.world.blocks == w.blocks - OwnedBlocks(d.ring)
        && Interfaces(d') == Interfaces(d) && d'.format == d.format
        // and nothing else in the record changes
        && d' == Join(d).(killNow := true, engineStarted := false, ring := EmptyRing)
  {
    var d := dev.extraData.value;
    if d.killNow then
      DeviceWorld(dev, w)
    else
      var joined := Join(d.(killNow := true));
      var rr := ResetBuffers(joined.ring, w, 0);
      DeviceWorld(dev.(extraData := Some(joined.(engineStarted := false, ring := rr.ring))), rr.world)
  }

  /** A second stop changes nothing. */
  lemma StopIdempotent(dev: Device, w: World)
    requires dev.extraData.Some? && SessionWf(dev.extraData.value, w)
    ensures var s := StopPlayback(dev, w);
      StopPlayback(s.device, s.world) == s
  {
  }

  /** A freshly opened device has killNow clear, so stopping it before any
      start is not a no-op: it raises killNow and stops the engine. */
  lemma StopBeforeStartActs(dev: Device, w: World, lim: RateLimits, channels: u32, replies: OpenReplies)
    requires WorldWf(w) && RateLimitsWf(lim)
    requires RateAccepted(dev.frequency, lim) && AllCreated(replies)
    ensures var o := OpenPlayback(dev, w, lim, channels, replies);
      && o.device.extraData.Some?
      && var s := StopPlayback(o.device, o.world);
      && s.device != o.device
      && s.device.extraData.value.killNow
  {
  }

  /** Start then stop, from a session whose ring is empty and which is not
      stopping, gives back the ring's block whatever start's replies were. */
  lemma StartThenStopFreesRing(dev: Device, w: World, frameSize: u32, replies: StartReplies)
    requires dev.extraData.Some? && SessionWf(dev.extraData.value, w)
    requires dev.extraData.value.engine.Some? && dev.extraData.value.sourceVoice.Some?
    requires dev.extraData.value.ring.size == 0 && !dev.extraData.value.killNow
    ensures var s := StartPlayback(dev, w, frameSize, replies);
      var t := StopPlayback(s.device, s.world);
      && t.world.blocks == w.blocks
      && t.world.handles == w.handles
      && t.device.extraData.value.ring.size == 0
  {
    var d := dev.extraData.value;
    var s := StartPlayback(dev, w, frameSize, replies);
    var d' := s.device.extraData.value;
    assert OwnedBlocks(d.ring) == {};
    if d'.ring.size != 0 {
      assert OwnedBlocks(d'.ring) == {d'.ring.buffers[0].block};
    }
  }

  /** After a stop, a restart whose engine fails leaves killNow raised, so
      the next stop returns at once and the ring allocated by the restart
      stays allocated until the device is closed. */
  lemma FailedRestartKeepsRing(dev: Device, w: World, frameSize: u32, replies: StartReplies)
    requires dev.extraData.Some? && SessionWf(dev.extraData.value, w)
    requires dev.extraData.value.engine.Some? && dev.extraData.value.sourceVoice.Some?
    requires dev.extraData.value.killNow && !replies.engineStarts
    ensures var s := StartPlayback(dev, w, frameSize, replies);
      && !s.ok
      && StopPlayback(s.device, s.world) == DeviceWorld(s.device, s.world)
  {
  }

  /** A 48 kHz stereo float device with 4 updates of 256 frames: open,
      reset and start give 8-byte frames, 2048-byte slots in one block of
      8192 bytes, and every slot renders 256 frames. */
  lemma StereoFloatScenario(w: World, lim: RateLimits, fmtChans: DevFmtChannels)
    requires WorldWf(w) && RateLimitsWf(lim) && RateAccepted(48000, lim)
    ensures var dev := Device(48000, 256, 4, DevFmtFloat, fmtChans, None);
      var o := OpenPlayback(dev, w, lim, 2, OpenReplies(true, true, true));
      && o.device.extraData.Some?
      && var s := ResetPlayback(o.device);
      && s.ok && s.device.fmtChans == DevFmtStereo && s.device.updateSize == 256
      && o.device.extraData.value.format.blockAlign == 8
      && var t := StartPlayback(s.device, o.world, 8, StartReplies(true, true, true));
      && t.ok
      && var d := t.device.extraData.value;
      && d.ring.size == 2048
      && |t.world.blocks[d.ring.buffers[0].block]| == 8192
      && FramesPerSlot(d) == 256
  {
    var dev := Device(48000, 256, 4, DevFmtFloat, fmtChans, None);
    var o := OpenPlayback(dev, w, lim, 2, OpenReplies(true, true, true));
    OpenThenResetRoundTrip(dev, w, lim, 2, OpenReplies(true, true, true));
    var s := ResetPlayback(o.device);
    StartSlotHoldsOneUpdate(s.device, o.world, 8, StartReplies(true, true, true));
  }
}

=== FILE: buffer_ring.dfy ===
/** The ring of NUM_BUFFERS equally sized sample buffers a session renders
    into: one calloc'd block sliced into consecutive slots, a slot size, and
    the round-robin index of the next slot to render into
    (Alc/backends/xaudio2.c:23,35-36,82-99). */
module BufferRing {
  import opened Machine
  import opened Resources

  /** NUM_BUFFERS: how many slots the ring has. */
  const NUM_BUFFERS: nat := 4

  /** Buffers[NUM_BUFFERS], BufferIndex and BufferSize of the session record. */
  datatype Ring = Ring(buffers: seq<Ptr>, index: u32, size: u32)

  /** NUM_BUFFERS null pointers. */
  function NullSlots(): (r: seq<Ptr>)
    ensures |r| == NUM_BUFFERS
    ensures forall i | 0 <= i < |r| :: r[i] == Null
  {
    seq(NUM_BUFFERS, _ => Null)
  }

  /** The ring of a zero-allocated session: no block, index 0, size 0. */
  const EmptyRing := Ring(NullSlots(), 0, 0)

  /** Pointers to the NUM_BUFFERS slots of `size` bytes laid end to end in
      block `b`. */
  function Slots(b: nat, size: nat): (r: seq<Ptr>)
    ensures |r| == NUM_BUFFERS
    ensures forall i | 0 <= i < NUM_BUFFERS :: r[i] == At(b, i * size)
  {
    seq(NUM_BUFFERS, i requires 0 <= i => At(b, i * size))
  }

  /** The ring holds either nothing (size 0, every slot null) or exactly
      one live block of NUM_BUFFERS*size bytes whose slots are its
      consecutive `size`-byte pieces; the index names one of the slots. */
  predicate RingWf(r: Ring, w: World)
  {
    && |r.buffers| == NUM_BUFFERS
    && r.index < NUM_BUFFERS
    && if r.size == 0 then r.buffers == NullSlots()
       else
         && r.buffers[0].At?
         && r.buffers == Slots(r.buffers[0].block, r.size)
         && r.buffers[0].block in w.blocks
         && |w.blocks[r.buffers[0].block]| == NUM_BUFFERS * r.size
  }

  /** The heap block the ring owns: none, or the one its first slot starts. */
  function OwnedBlocks(r: Ring): set<nat>
    requires |r.buffers| == NUM_BUFFERS
  {
    if r.buffers[0].At? then {r.buffers[0].block} else {}
  }

  datatype RingWorld = RingWorld(ring: Ring, world: World)

  /** XAudio2Data_ResetBuffers with the slot offsets computed without
      wrap-around (see ResetBuffersAsWritten for the 32-bit product the
      source uses). A new size frees the old block and, unless the new size
      is zero, allocates a fresh zero-filled block for all slots; the same
      size keeps everything. Either way the index is rewound. */
  function ResetBuffers(r: Ring, w: World, newSize: u32): (res: RingWorld)
    requires WorldWf(w) && RingWf(r, w)
    ensures RingWf(res.ring, res.world) && WorldWf(res.world)
    ensures res.ring.index == 0
    ensures res.ring.size == newSize
    ensures res.world.handles == w.handles
    // same size: nothing but the index changes
    ensures newSize == r.size ==> res.ring.buffers == r.buffers && res.world == w
    // size zero: every slot null and the old block, if any, freed
    ensures newSize == 0 ==> res.ring.buffers == NullSlots() && res.world.blocks == w.blocks - OwnedBlocks(r)
    // new non-zero size: one fresh zeroed block of NUM_BUFFERS*newSize bytes
    // replaces the old one, slot i at offset i*newSize
    ensures newSize != r.size && newSize > 0 ==>
              && res.ring.buffers[0].At?
              && var b := res.ring.buffers[0].block;
              && b !in w.blocks
              && res.ring.buffers == Slots(b, newSize)
              && res.world.blocks == (w.blocks - OwnedBlocks(r))[b := Zeros(NUM_BUFFERS * newSize)]
  {
    if r.size != newSize then
      var freed := Free(w, r.buffers[0]);
      if newSize != 0 then
        var a := Calloc(freed, NUM_BUFFERS * newSize);
        RingWorld(Ring(Slots(a.block, newSize), 0, newSize), a.world)
      else
        RingWorld(Ring(NullSlots(), 0, 0), freed)
    else
      assert r.size == 0 ==> w.blocks - OwnedBlocks(r) == w.blocks;
      RingWorld(r.(index := 0), w)
  }

  /** Slot `i` of a ring of `size`-byte slots covers byte offset `p`. */
  predicate InSlot(p: nat, i: nat, size: nat)
  {
    i * size <= p < (i + 1) * size
  }

  /** Every byte of the block lies in exactly one slot, the one numbered
      p / size: the slots are disjoint and together cover the block. */
  lemma SlotsPartitionBlock(p: nat, size: nat)
    requires size > 0 && p < NUM_BUFFERS * size
    ensures p / size < NUM_BUFFERS
    ensures InSlot(p, p / size, size)
    ensures forall i: nat | i < NUM_BUFFERS :: InSlot(p, i, size) <==> i == p / size
  {
    var q := p / size;
    assert q * size <= p < (q + 1) * size;
    forall i: nat | i < NUM_BUFFERS && InSlot(p, i, size)
      ensures i == q
    {
      if i < q {
        MulMonotone(i + 1, q, size);
      } else if i > q {
        MulMonotone(q + 1, i, size);
      }
    }
  }

  /** Euclidean division of naturals brackets the dividend: x / f whole
      parts of f fit in x, one more does not. */
  lemma FloorDiv(x: nat, f: nat)
    requires f > 0
    ensures x / f * f <= x < x / f * f + f
    ensures (x / f + 1) * f == x / f * f + f
    ensures x % f == 0 ==> x / f * f == x
    ensures x % f == 0 && x > 0 ==> x / f >= 1
  {
    assert x == x / f * f + x % f;
  }

  lemma MulMonotone(a: nat, b: nat, c: nat)
    requires a <= b
    ensures a * c <= b * c
  {
  }

  /** A slot lies inside the block: slot i ends no later than byte
      NUM_BUFFERS*size. */
  lemma SlotInsideBlock(i: nat, size: nat)
    requires i < NUM_BUFFERS
    ensures i * size + size <= NUM_BUFFERS * size
  {
    MulMonotone(i + 1, NUM_BUFFERS, size);
  }

  // ---- The slot arithmetic as the source writes it ----------------------

  /** Slot pointers as the source computes them: `i*NewSize` multiplies an
      int by a UINT32, which is an unsigned 32-bit product, so the offset
      wraps before it is added to the block pointer. */
  function SlotsAsWritten(b: nat, size: u32): (r: seq<Ptr>)
    ensures |r| == NUM_BUFFERS
    ensures forall i | 0 <= i < NUM_BUFFERS :: r[i] == At(b, ToDword(i * size))
  {
    seq(NUM_BUFFERS, i requires 0 <= i => At(b, ToDword(i * size)))
  }

  /** XAudio2Data_ResetBuffers exactly as written, wrapping slot offsets. */
  function ResetBuffersAsWritten(r: Ring, w: World, newSize: u32): (res: RingWorld)
    requires WorldWf(w) && RingWf(r, w)
    ensures |res.ring.buffers| == NUM_BUFFERS
    ensures res.ring.index == 0
    ensures res.ring.size == newSize
    ensures newSize != r.size && newSize > 0 ==>
              && res.ring.buffers[0].At?
              && res.ring.buffers == SlotsAsWritten(res.ring.buffers[0].block, newSize)
  {
    if r.size != newSize then
      var freed := Free(w, r.buffers[0]);
      if newSize != 0 then
        var a := Calloc(freed, NUM_BUFFERS * newSize);
        RingWorld(Ring(SlotsAsWritten(a.block, newSize), 0, newSize), a.world)
      else
        RingWorld(Ring(NullSlots(), 0, 0), freed)
    else
      RingWorld(r.(index := 0), w)
  }

  /** While (NUM_BUFFERS-1)*size fits in 32 bits the source's slots are the
      intended ones. */
  lemma AsWrittenAgreesBelowWrap(r: Ring, w: World, newSize: u32)
    requires WorldWf(w) && RingWf(r, w)
    requires (NUM_BUFFERS - 1) * newSize < DWORD_MODULUS
    ensures ResetBuffersAsWritten(r, w, newSize) == ResetBuffers(r, w, newSize)
  {
    forall b: nat ensures SlotsAsWritten(b, newSize) == Slots(b, newSize) {
      forall i | 0 <= i < NUM_BUFFERS
        ensures ToDword(i * newSize) == i * newSize
      {
        MulMonotone(i, NUM_BUFFERS - 1, newSize);
      }
    }
  }

  /** A slot size of 0x6000_0000 bytes: the block is 0x1_8000_0000 bytes,
      but slot 3's offset 3*0x6000_0000 wraps to 0x2000_0000, which lies
      inside slot 0, so rendering into slot 3 overwrites slot 0. */
  lemma AsWrittenSlotThreeAliasesSlotZero(w: World)
    requires WorldWf(w)
    ensures var res := ResetBuffersAsWritten(EmptyRing, w, 0x6000_0000);
      && res.ring.buffers[3].offset == 0x2000_0000
      && InSlot(res.ring.buffers[3].offset, 0, res.ring.size)
      && !RingWf(res.ring, res.world)
  {
    var res := ResetBuffersAsWritten(EmptyRing, w, 0x6000_0000);
    assert res.ring.buffers[3] == At(res.ring.buffers[0].block, ToDword(3 * 0x6000_0000));
    assert res.ring.buffers[3] != Slots(res.ring.buffers[0].block, 0x6000_0000)[3];
  }
}

=== FILE: machine.dfy ===
/** Machine-level types of the Windows build the backend is compiled for:
    the fixed-width unsigned integers its fields are declared with, the
    truncations its arithmetic goes through, and an optional value for
    nullable pointers. */
module Machine {

  /** 2^16, the modulus of a WORD. */
  const WORD_MODULUS: nat := 0x1_0000

  /** 2^32, the modulus of UINT32, DWORD and ALuint. */
  const DWORD_MODULUS: nat := 0x1_0000_0000

  /** WORD: the 16-bit unsigned fields of WAVEFORMATEX. */
  type u16 = x: int | 0 <= x < 0x1_0000

  /** UINT32, DWORD and ALuint. */
  type u32 = x: int | 0 <= x < 0x1_0000_0000

  /** One byte of sample memory. */
  type byte = x: int | 0 <= x < 0x100

  /** A nullable reference: a pointer field that may be NULL. */
  datatype Option<+T> = None | Some(value: T)

  /** Storing a non-negative integer into a WORD keeps its low 16 bits. */
  function ToWord(x: nat): (r: u16)
    ensures x < WORD_MODULUS ==> r == x
    ensures r <= x
    // the bits dropped are whole multiples of 2^16: r is x modulo 2^16
    ensures (x - r) % WORD_MODULUS == 0
  {
    x % WORD_MODULUS
  }

  /** Storing a non-negative integer into a 32-bit unsigned keeps its low
      32 bits; unsigned 32-bit products and sums wrap the same way. */
  function ToDword(x: nat): (r: u32)
    ensures x < DWORD_MODULUS ==> r == x
    ensures r <= x
    // the bits dropped are whole multiples of 2^32: r is x modulo 2^32
    ensures (x - r) % DWORD_MODULUS == 0
  {
    x % DWORD_MODULUS
  }
}

=== FILE: playback_loop.dfy ===
/** One iteration of the mixer thread's loop, PlaybackThreadProc
    (Alc/backends/xaudio2.c:129-149), as a step function. The source voice
    is an oracle: what GetState reports as BuffersQueued and whether
    SubmitSourceBuffer succeeds this time. The renderer aluMixData is an
    oracle too: the bytes it writes. Blocking on the buffer-end event is a
    step that changes nothing; whatever wakes it, the next step queries the
    queue depth again. */
module PlaybackLoop {
  import opened Machine
  import opened Resources
  import opened BufferRing
  import opened Session

  /** What the source voice answers during one iteration. */
  datatype SinkReply = SinkReply(buffersQueued: nat, submitSucceeds: bool)

  /** The XAUDIO2_BUFFER handed to SubmitSourceBuffer. */
  datatype AudioBuffer = AudioBuffer(audioData: Ptr, audioBytes: u32)

  datatype Outcome =
    | Exited                              // killNow was set: the loop ends
    | Waited                              // every slot was queued: blocked on the event
    | Submitted(buffer: AudioBuffer)      // rendered and queued one slot
    | SubmitFailed(buffer: AudioBuffer)   // rendered, but the voice refused it: the loop ends

  datatype StepResult = StepResult(data: XAudio2Data, world: World, outcome: Outcome)

  /** Whether the loop is over after this outcome. */
  predicate Ends(o: Outcome)
  {
    o.Exited? || o.SubmitFailed?
  }

  /** Frames rendered per slot: BufferSize / nBlockAlign. */
  function FramesPerSlot(d: XAudio2Data): nat
    requires d.format.blockAlign > 0
  {
    d.ring.size / d.format.blockAlign
  }

  /** Bytes the renderer writes into a slot: it is asked for
      BufferSize / nBlockAlign frames and writes them at the device's own
      frame size (FrameSizeFromDevFmt). When that equals nBlockAlign the
      write is whole frames that fit the slot; a larger device frame
      overruns the slot. */
  function RenderBytes(d: XAudio2Data, frameSize: nat): (n: nat)
    requires d.format.blockAlign > 0
    ensures frameSize <= d.format.blockAlign ==> n <= d.ring.size
    ensures frameSize == d.format.blockAlign ==> d.ring.size - n < d.format.blockAlign
    // a slot of whole wire frames, rendered at a larger device frame, overflows
    ensures frameSize > d.format.blockAlign && d.ring.size > 0 && d.ring.size % d.format.blockAlign == 0 ==>
              n > d.ring.size
  {
    RenderedFrames(d.ring.size, d.format.blockAlign, frameSize);
    FramesPerSlot(d) * frameSize
  }

  /** size / blockAlign frames of `frameSize` bytes against a slot of
      `size` bytes. */
  lemma RenderedFrames(size: nat, blockAlign: nat, frameSize: nat)
    requires blockAlign > 0
    ensures frameSize <= blockAlign ==> size / blockAlign * frameSize <= size
    ensures frameSize == blockAlign ==> size - size / blockAlign * frameSize < blockAlign
    ensures frameSize > blockAlign && size > 0 && size % blockAlign == 0 ==> size / blockAlign * frameSize > size
  {
    var frames := size / blockAlign;
    FloorDiv(size, blockAlign);
    if frameSize <= blockAlign {
      MulMonotone(frameSize, blockAlign, frames);
    } else if size > 0 && size % blockAlign == 0 {
      MulMonotone(blockAlign + 1, frameSize, frames);
    }
  }

  /** What the thread does once the loop is over: stop the source voice
      and flush whatever it still has queued. */
  function StopVoice(d: XAudio2Data): XAudio2Data
  {
    d.(voiceStarted := false)
  }

  /** Control state and outcome of one iteration, without the bytes the
      renderer writes. */
  datatype Control = Control(data: XAudio2Data, outcome: Outcome)

  /** The control flow of one pass of the loop: check killNow, query the
      queue depth, and either wait, or take the current slot, advance the
      index and submit. */
  function Iterate(d: XAudio2Data, reply: SinkReply): (c: Control)
    requires |d.ring.buffers| == NUM_BUFFERS && d.ring.index < NUM_BUFFERS
    ensures c.data.ring.buffers == d.ring.buffers && c.data.ring.size == d.ring.size
    ensures c.data.ring.index < NUM_BUFFERS
    ensures c.data == d.(ring := c.data.ring, voiceStarted := c.data.voiceStarted)
    ensures Ends(c.outcome) ==> !c.data.voiceStarted
    // stop requested: the loop ends whatever the voice would say
    ensures d.killNow ==> c.outcome == Exited && c.data == StopVoice(d)
    // every slot queued: no render, no submit, nothing changes
    ensures !d.killNow && reply.buffersQueued >= NUM_BUFFERS ==> c.outcome == Waited && c.data == d
    // otherwise exactly one slot submitted, and the index moves on by one
    ensures !d.killNow && reply.buffersQueued < NUM_BUFFERS ==>
              && (c.outcome.Submitted? || c.outcome.SubmitFailed?)
              && c.outcome.buffer == AudioBuffer(d.ring.buffers[d.ring.index], d.ring.size)
              && c.data.ring.index == (d.ring.index + 1) % NUM_BUFFERS
              && (c.outcome.Submitted? <==> reply.submitSucceeds)
  {
    if d.killNow then
      Control(StopVoice(d), Exited)
    else if reply.buffersQueued >= NUM_BUFFERS then
      Control(d, Waited)
    else
      var buf := AudioBuffer(d.ring.buffers[d.ring.index], d.ring.size);
      var d1 := d.(ring := d.ring.(index := (d.ring.index + 1) % NUM_BUFFERS));
      if reply.submitSucceeds then Control(d1, Submitted(buf))
      else Control(StopVoice(d1), SubmitFailed(buf))
  }

  /** Whether the iteration rendered into a slot (and then tried to submit it). */
  predicate Rendered(o: Outcome)
  {
    o.Submitted? || o.SubmitFailed?
  }

  /** One full pass of the loop: the control flow of Iterate, with the
      renderer's bytes written through the pointer of the slot it hands to
      the voice. `frameSize` is the device's frame size. The write must stay
      inside the ring's block: past its end it would be a heap overflow. */
  function Step(d: XAudio2Data, w: World, reply: SinkReply, frameSize: nat, mixed: seq<byte>): (r: StepResult)
    requires SessionWf(d, w)
    requires d.format.blockAlign > 0
    requires |mixed| == RenderBytes(d, frameSize)
    // a pass that renders must write inside the ring's block
    requires !d.killNow && reply.buffersQueued < NUM_BUFFERS ==> d.ring.index * d.ring.size + |mixed| <= NUM_BUFFERS * d.ring.size
    ensures SessionWf(r.data, r.world)
    // the control flow is exactly that of one iteration
    ensures r.data == Iterate(d, reply).data && r.outcome == Iterate(d, reply).outcome
    ensures r.world.handles == w.handles
    // only a rendering iteration touches memory, and then only the slot
    ensures !Rendered(r.outcome) ==> r.world == w
    ensures Rendered(r.outcome) ==> Overwrites(w, r.world, d.ring.buffers[d.ring.index], mixed)
  {
    var c := Iterate(d, reply);
    if Rendered(c.outcome) then
      StepResult(c.data, Store(w, c.outcome.buffer.audioData, mixed), c.outcome)
    else
      StepResult(c.data, w, c.outcome)
  }

  /** Once killNow is set, a pass leaves the loop without rendering, and
      memory is untouched, whatever frame size the device has. */
  lemma KilledStepExits(d: XAudio2Data, w: World, reply: SinkReply, frameSize: nat, mixed: seq<byte>)
    requires SessionWf(d, w) && d.format.blockAlign > 0
    requires |mixed| == RenderBytes(d, frameSize)
    requires d.killNow
    ensures var r := Step(d, w, reply, frameSize, mixed);
      r.outcome == Exited && r.world == w && !r.data.voiceStarted
  {
  }

  /** Rendering into one slot leaves the bytes of every other slot as they
      were: the slots of the block are disjoint, and a device frame no
      larger than nBlockAlign keeps the write inside its slot. */
  lemma RenderLeavesOtherSlots(d: XAudio2Data, w: World, reply: SinkReply, frameSize: nat, mixed: seq<byte>, j: nat, k: nat)
    requires SessionWf(d, w)
    requires 0 < frameSize <= d.format.blockAlign
    requires |mixed| == RenderBytes(d, frameSize)
    requires d.ring.size > 0
    requires j < NUM_BUFFERS && j != d.ring.index
    requires InSlot(k, j, d.ring.size)
    ensures var b := d.ring.buffers[0].block;
      && b in w.blocks
      && k < |w.blocks[b]|
      && d.ring.index * d.ring.size + |mixed| <= NUM_BUFFERS * d.ring.size
      && Step(d, w, reply, frameSize, mixed).world.blocks[b][k] == w.blocks[b][k]
  {
    var size := d.ring.size;
    var i := d.ring.index as nat;
    var b := d.ring.buffers[0].block;
    SlotInsideBlock(i, size);
    MulMonotone(j + 1, NUM_BUFFERS, size);
    SlotsPartitionBlock(k, size);
    assert !InSlot(k, i, size);
    assert d.ring.buffers[i] == At(b, i * size);
  }

  /** With a device frame larger than nBlockAlign, rendering into a slot
      that is not the last one writes into the first byte of the next slot,
      which the voice may still be playing. */
  lemma LargerDeviceFrameOverrunsNextSlot(d: XAudio2Data, w: World, reply: SinkReply, frameSize: nat, mixed: seq<byte>)
    requires SessionWf(d, w)
    requires 0 < d.format.blockAlign < frameSize
    requires d.ring.size > 0 && d.ring.size % d.format.blockAlign == 0
    requires d.ring.index < NUM_BUFFERS - 1
    requires |mixed| == RenderBytes(d, frameSize)
    requires d.ring.index * d.ring.size + |mixed| <= NUM_BUFFERS * d.ring.size
    requires !d.killNow && reply.buffersQueued < NUM_BUFFERS
    ensures var b := d.ring.buffers[0].block;
      var first := (d.ring.index + 1) * d.ring.size;
      && InSlot(first, d.ring.index + 1, d.ring.size)
      && b in w.blocks && first < |w.blocks[b]|
      && Step(d, w, reply, frameSize, mixed).world.blocks[b][first] == mixed[d.ring.size]
  {
    var size := d.ring.size;
    var i := d.ring.index as nat;
    var b := d.ring.buffers[0].block;
    SlotInsideBlock(i + 1, size);
    assert d.ring.buffers[i] == At(b, i * size);
    assert (i + 1) * size == i * size + size;
  }

  /** The slots submitted, in order, and the final state of a run of `n`
      iterations in which the voice always has room and accepts every
      buffer. */
  datatype Run = Run(data: XAudio2Data, slots: seq<Ptr>)

  function SubmitRun(d: XAudio2Data, n: nat): (r: Run)
    requires |d.ring.buffers| == NUM_BUFFERS && d.ring.index < NUM_BUFFERS && !d.killNow
    ensures r.data.ring.buffers == d.ring.buffers && r.data.ring.index < NUM_BUFFERS
    ensures !r.data.killNow
    ensures |r.slots| == n
    decreases n
  {
    if n == 0 then Run(d, [])
    else
      var c := Iterate(d, SinkReply(0, true));
      var rest := SubmitRun(c.data, n - 1);
      Run(rest.data, [c.outcome.buffer.audioData] + rest.slots)
  }

  /** The reference order: `n` slots taken round the ring starting at
      slot `i`. */
  function Cycle(bufs: seq<Ptr>, i: nat, n: nat): (r: seq<Ptr>)
    requires |bufs| == NUM_BUFFERS
    ensures |r| == n
    ensures forall j | 0 <= j < n :: r[j] == bufs[(i + j) % NUM_BUFFERS]
  {
    seq(n, j requires 0 <= j => bufs[(i + j) % NUM_BUFFERS])
  }

  /** Taking n+1 slots from slot i is slot i followed by n slots from the
      next one. */
  lemma CycleUnfold(bufs: seq<Ptr>, i: nat, n: nat)
    requires |bufs| == NUM_BUFFERS && i < NUM_BUFFERS
    ensures Cycle(bufs, i, n + 1) == [bufs[i]] + Cycle(bufs, (i + 1) % NUM_BUFFERS, n)
  {
    var lhs := Cycle(bufs, i, n + 1);
    var rhs := [bufs[i]] + Cycle(bufs, (i + 1) % NUM_BUFFERS, n);
    forall j | 0 <= j < n + 1
      ensures lhs[j] == rhs[j]
    {
      if j > 0 {
        ModSucc(i, j - 1);
      }
    }
  }

  lemma ModSucc(i: nat, j: nat)
    ensures ((i + 1) % NUM_BUFFERS + j) % NUM_BUFFERS == (i + (j + 1)) % NUM_BUFFERS
  {
  }

  /** Successive submissions go round the ring: they use the slots in
      reference order from the current index, and the index ends n slots
      on. */
  lemma {:induction false} RoundRobin(d: XAudio2Data, n: nat)
    requires |d.ring.buffers| == NUM_BUFFERS && d.ring.index < NUM_BUFFERS && !d.killNow
    ensures var r := SubmitRun(d, n);
      && r.data.ring.index == (d.ring.index + n) % NUM_BUFFERS
      && r.slots == Cycle(d.ring.buffers, d.ring.index as nat, n)
    decreases n
  {
    if n > 0 {
      var i := d.ring.index as nat;
      var c := Iterate(d, SinkReply(0, true));
      RoundRobin(c.data, n - 1);
      CycleUnfold(d.ring.buffers, i, n - 1);
      ModSucc(i, n - 1);
    }
  }

  /** From a freshly rewound ring, NUM_BUFFERS + 1 submissions use slots
      0, 1, 2, 3 and then 0 again. */
  lemma FreshRingCyclesThroughSlots(d: XAudio2Data)
    requires |d.ring.buffers| == NUM_BUFFERS && d.ring.index == 0 && !d.killNow
    ensures var b := d.ring.buffers;
      SubmitRun(d, NUM_BUFFERS + 1).slots == [b[0], b[1], b[2], b[3], b[0]]
  {
    RoundRobin(d, NUM_BUFFERS + 1);
    var b := d.ring.buffers;
    var c := Cycle(b, 0, NUM_BUFFERS + 1);
    assert c[0] == b[0] && c[1] == b[1] && c[2] == b[2] && c[3] == b[3] && c[4] == b[0];
  }
}

=== FILE: resources.dfy ===
/** The process resources a session can hold outside its own record: native
    handles (the buffer-end event and the XAudio2 COM interfaces) and heap
    blocks obtained from calloc. Creation always hands out an identity that
    was never used before, so a fresh handle or block cannot alias a live one. */
module Resources {
  import opened Machine

  datatype HandleKind =
    | EventHandle          // BufferEndEvent, from CreateEventEx
    | EngineHandle         // IXAudio2, from XAudio2Create
    | MasteringVoiceHandle // IXAudio2MasteringVoice
    | SourceVoiceHandle    // IXAudio2SourceVoice

  datatype Handle = Handle(kind: HandleKind, id: nat)

  /** A data pointer: NULL, or a byte offset into a heap block. */
  datatype Ptr = Null | At(block: nat, offset: nat)

  /** Live native handles, live heap blocks with their contents, and the
      next unused identity. */
  datatype World = World(handles: set<Handle>, blocks: map<nat, seq<byte>>, next: nat)

  /** Every live identity was handed out before `next`. */
  predicate WorldWf(w: World)
  {
    && (forall h | h in w.handles :: h.id < w.next)
    && (forall b | b in w.blocks :: b < w.next)
  }

  datatype Acquired = Acquired(handle: Handle, world: World)

  /** A native object creation that succeeded: one new live handle. */
  function Acquire(w: World, kind: HandleKind): (r: Acquired)
    requires WorldWf(w)
    ensures r.handle.kind == kind
    ensures r.handle !in w.handles
    ensures r.world.handles == w.handles + {r.handle}
    ensures r.world.blocks == w.blocks
    ensures WorldWf(r.world)
  {
    var h := Handle(kind, w.next);
    Acquired(h, w.(handles := w.handles + {h}, next := w.next + 1))
  }

  /** CloseHandle, DestroyVoice or Release of a live handle. */
  function Release(w: World, h: Handle): (r: World)
    ensures h !in r.handles
    ensures r.handles == w.handles - {h}
    ensures r.blocks == w.blocks
    ensures WorldWf(w) ==> WorldWf(r)
  {
    w.(handles := w.handles - {h})
  }

  /** `n` zero bytes. */
  function Zeros(n: nat): (r: seq<byte>)
    ensures |r| == n
    ensures forall i | 0 <= i < n :: r[i] == 0
  {
    seq(n, _ => 0)
  }

  datatype Allocated = Allocated(block: nat, world: World)

  /** calloc of `n` bytes: a block that was not live before, zero-filled. */
  function Calloc(w: World, n: nat): (r: Allocated)
    requires WorldWf(w)
    ensures r.block !in w.blocks
    // the block takes the next unused identity
    ensures r.block == w.next
    ensures r.world.blocks == w.blocks[r.block := Zeros(n)]
    ensures r.world.handles == w.handles
    ensures WorldWf(r.world)
  {
    Allocated(w.next, w.(blocks := w.blocks[w.next := Zeros(n)], next := w.next + 1))
  }

  /** free: releases the block a pointer starts; free(NULL) does nothing. */
  function Free(w: World, p: Ptr): (r: World)
    requires p.At? ==> p.offset == 0 && p.block in w.blocks
    ensures p.Null? ==> r == w
    ensures p.At? ==> p.block !in r.blocks && r.blocks == w.blocks - {p.block}
    ensures r.handles == w.handles
    ensures WorldWf(w) ==> WorldWf(r)
  {
    if p.Null? then w else w.(blocks := w.blocks - {p.block})
  }

  /** `w2` is `w` with `bytes` written at `p` and nothing else changed. */
  ghost predicate Overwrites(w: World, w2: World, p: Ptr, bytes: seq<byte>)
  {
    && w2.handles == w.handles
    && w2.next == w.next
    && w2.blocks.Keys == w.blocks.Keys
    && (forall k | k in w.blocks && (p.Null? || k != p.block) :: w2.blocks[k] == w.blocks[k])
    && (p.At? && p.block in w.blocks ==>
          && |w2.blocks[p.block]| == |w.blocks[p.block]|
          && p.offset + |bytes| <= |w.blocks[p.block]|
          && (forall j | 0 <= j < |bytes| :: w2.blocks[p.block][p.offset + j] == bytes[j])
          && (forall k | 0 <= k < |w.blocks[p.block]| && !(p.offset <= k < p.offset + |bytes|) ::
                w2.blocks[p.block][k] == w.blocks[p.block][k]))
  }

  /** A write of `bytes` through `p`, which must fit in its block; a
      write through NULL is only meaningful when it writes nothing. */
  function Store(w: World, p: Ptr, bytes: seq<byte>): (r: World)
    requires p.Null? ==> |bytes| == 0
    requires p.At? ==> p.block in w.blocks && p.offset + |bytes| <= |w.blocks[p.block]|
    ensures Overwrites(w, r, p, bytes)
    ensures WorldWf(w) ==> WorldWf(r)
  {
    if p.Null? then w
    else
      var prior := w.blocks[p.block];
      var updated := seq(|prior|, k requires 0 <= k < |prior| =>
        if p.offset <= k < p.offset + |bytes| then bytes[k - p.offset] else prior[k]);
      w.(blocks := w.blocks[p.block := updated])
  }
}

=== FILE: session.dfy ===
/** The per-device backend record XAudio2Data (Alc/backends/xaudio2.c:27-39)
    and its construction and teardown: XAudio2Data_New, XAudio2Data_Delete
    and XAudio2Data_ReleaseInterfaces (Alc/backends/xaudio2.c:65-118). The
    COM interfaces and the event are handles in the surrounding World; the
    sample buffers are a BufferRing, and the record itself is a heap block
    of its own. The callback table pointer lpVtbl is not modelled. */
module Session {
  import opened Machine
  import opened Resources
  import opened WaveFormat
  import opened BufferRing

  /** The record's fields are the XAudio2Data value below, so its heap block
      stands only for the allocation; sizeof(XAudio2Data) depends on the
      platform and is not modelled. */
  const RECORD_BYTES: nat := 0

  datatype XAudio2Data = XAudio2Data(
    record: nat,                     // the record's own heap block
    engine: Option<Handle>,          // pXAudio
    masteringVoice: Option<Handle>,  // pMasteringVoice
    sourceVoice: Option<Handle>,     // pSourceVoice
    threadRunning: bool,             // thread: spawned and not yet joined
    format: WaveFormatEx,            // Format
    ring: Ring,                      // Buffers, BufferIndex, BufferSize
    bufferEndEvent: Handle,          // BufferEndEvent
    killNow: bool,
    engineStarted: bool,             // StartEngine succeeded, StopEngine not yet called
    voiceStarted: bool)              // the source voice was started and not yet stopped

  function HandleSet(o: Option<Handle>): set<Handle>
  {
    if o.Some? then {o.value} else {}
  }

  /** The COM interfaces the record holds. */
  function Interfaces(d: XAudio2Data): set<Handle>
  {
    HandleSet(d.engine) + HandleSet(d.masteringVoice) + HandleSet(d.sourceVoice)
  }

  /** Every native handle the record holds. */
  function Owned(d: XAudio2Data): set<Handle>
  {
    {d.bufferEndEvent} + Interfaces(d)
  }

  /** Each interface field holds a live handle of its own kind. */
  predicate InterfacesLive(d: XAudio2Data, w: World)
  {
    && (d.engine.Some? ==> d.engine.value.kind == EngineHandle)
    && (d.masteringVoice.Some? ==> d.masteringVoice.value.kind == MasteringVoiceHandle)
    && (d.sourceVoice.Some? ==> d.sourceVoice.value.kind == SourceVoiceHandle)
    && Interfaces(d) <= w.handles
  }

  /** Every handle field holds a live handle of its own kind, and the ring
      is well formed. */
  predicate SessionWf(d: XAudio2Data, w: World)
  {
    && WorldWf(w)
    && RingWf(d.ring, w)
    && d.bufferEndEvent.kind == EventHandle
    && d.bufferEndEvent in w.handles
    && InterfacesLive(d, w)
  }

  datatype SessionWorld = SessionWorld(data: XAudio2Data, world: World)

  /** The heap once XAudio2Data_New has run on `w`: one more block, the
      record, under the next unused identity. */
  function WithRecord(w: World): (m: map<nat, seq<byte>>)
    requires WorldWf(w)
    ensures w.next !in w.blocks
    ensures m.Keys == w.blocks.Keys + {w.next}
    ensures forall b | b in w.blocks :: m[b] == w.blocks[b]
  {
    w.blocks[w.next := Zeros(RECORD_BYTES)]
  }

  /** XAudio2Data_New: a zero-filled record in a block of its own, whose
      only other resource is a newly created buffer-end event. */
  function New(w: World): (r: SessionWorld)
    requires WorldWf(w)
    ensures SessionWf(r.data, r.world)
    ensures r.data.bufferEndEvent !in w.handles
    ensures Owned(r.data) == {r.data.bufferEndEvent}
    ensures r.world.handles == w.handles + Owned(r.data)
    // the record is the one new block
    ensures r.data.record !in w.blocks && r.data.record == w.next
    ensures r.world.blocks == WithRecord(w)
    ensures r.data.ring == EmptyRing && r.data.format == ZeroFormat
    ensures !r.data.killNow && !r.data.threadRunning && !r.data.engineStarted && !r.data.voiceStarted
  {
    var m := Calloc(w, RECORD_BYTES);
    var e := Acquire(m.world, EventHandle);
    SessionWorld(XAudio2Data(m.block, None, None, None, false, ZeroFormat, EmptyRing, e.handle, false, false, false), e.world)
  }

  /** Destroys or releases the interface a pointer field holds, if any. */
  function ReleaseIfPresent(w: World, o: Option<Handle>): (r: World)
    ensures r.handles == w.handles - HandleSet(o)
    ensures r.blocks == w.blocks
    ensures WorldWf(w) ==> WorldWf(r)
  {
    if o.Some? then Release(w, o.value) else w
  }

  /** XAudio2Data_ReleaseInterfaces: destroys the source voice, then the
      mastering voice, then releases the engine, each only if present, and
      nulls the fields. */
  function ReleaseInterfaces(d: XAudio2Data, w: World): (r: SessionWorld)
    requires WorldWf(w) && InterfacesLive(d, w)
    ensures WorldWf(r.world)
    ensures SessionWf(d, w) ==> SessionWf(r.data, r.world)
    ensures Interfaces(r.data) == {}
    ensures r.world.handles == w.handles - Interfaces(d)
    ensures r.world.blocks == w.blocks
    ensures r.data == d.(engine := None, masteringVoice := None, sourceVoice := None)
  {
    var w1 := ReleaseIfPresent(w, d.sourceVoice);
    var w2 := ReleaseIfPresent(w1, d.masteringVoice);
    var w3 := ReleaseIfPresent(w2, d.engine);
    assert w3.handles == w.handles - Interfaces(d);
    SessionWorld(d.(engine := None, masteringVoice := None, sourceVoice := None), w3)
  }

  /** XAudio2Data_Delete: closes the event, shrinks the ring to nothing and
      releases the interfaces. Every handle and heap block the record owned
      is gone afterwards. The record's own block is not freed, and its event
      field still names the closed event. */
  function Delete(d: XAudio2Data, w: World): (r: SessionWorld)
    requires SessionWf(d, w)
    ensures WorldWf(r.world)
    ensures r.world.handles == w.handles - Owned(d)
    ensures r.world.blocks == w.blocks - OwnedBlocks(d.ring)
    // the record's block is never among the ring's, so it outlives Delete
    ensures d.record in w.blocks && d.record !in OwnedBlocks(d.ring) ==> d.record in r.world.blocks
    ensures r.data.record == d.record
    ensures Interfaces(r.data) == {}
    ensures r.data.ring.size == 0 && r.data.ring.buffers == NullSlots() && r.data.ring.index == 0
  {
    var w1 := Release(w, d.bufferEndEvent);
    assert WorldWf(w1) && RingWf(d.ring, w1);
    var rr := ResetBuffers(d.ring, w1, 0);
    var d1 := d.(ring := rr.ring);
    assert Interfaces(d1) == Interfaces(d);
    assert InterfacesLive(d1, rr.world);
    ReleaseInterfaces(d1, rr.world)
  }
}

=== FILE: wave_format.dfy ===
/** The wire format negotiated with XAudio2: the WAVEFORMATEX record that
    open derives from the device's requested sample type, channel count and
    rate (Alc/backends/xaudio2.c:173-190), and the mapping reset uses to turn
    that record back into a device sample type and channel layout
    (Alc/backends/xaudio2.c:232-268). */
module WaveFormat {
  import opened Machine

  /** Format tags of the Windows wave format registry. */
  const WAVE_FORMAT_PCM: u16 := 1
  const WAVE_FORMAT_IEEE_FLOAT: u16 := 3

  /** sizeof(WAVEFORMATEX), which open stores in cbSize. */
  const SIZEOF_WAVEFORMATEX: u16 := 18

  datatype WaveFormatEx = WaveFormatEx(
    formatTag: u16,
    channels: u16,
    samplesPerSec: u32,
    avgBytesPerSec: u32,
    blockAlign: u16,
    bitsPerSample: u16,
    cbSize: u16)

  /** The format of a freshly zero-allocated session record. */
  const ZeroFormat := WaveFormatEx(0, 0, 0, 0, 0, 0, 0)

  /** The engine's device sample types. */
  datatype DevFmtType =
    | DevFmtByte | DevFmtUByte
    | DevFmtShort | DevFmtUShort
    | DevFmtInt | DevFmtUInt
    | DevFmtFloat

  /** The engine's device channel layouts. This backend only ever produces
      mono and stereo; the surround layouts are kept abstract. */
  datatype DevFmtChannels = DevFmtMono | DevFmtStereo | DevFmtMultichannel(layout: nat)

  /** The WAVEFORMATEX open fills in for sample type `t`, the channel count
      of the device layout and the device frequency. nChannels and
      nBlockAlign are WORDs and nAvgBytesPerSec a DWORD, so each is stored
      truncated. */
  function DeriveFormat(t: DevFmtType, channels: u32, rate: u32): (f: WaveFormatEx)
    ensures t == DevFmtFloat ==> f.formatTag == WAVE_FORMAT_IEEE_FLOAT && f.bitsPerSample == 32
    ensures t == DevFmtByte || t == DevFmtUByte ==> f.formatTag == WAVE_FORMAT_PCM && f.bitsPerSample == 8
    ensures t != DevFmtFloat && t != DevFmtByte && t != DevFmtUByte ==>
              f.formatTag == WAVE_FORMAT_PCM && f.bitsPerSample == 16
    ensures f.samplesPerSec == rate
    ensures f.cbSize == SIZEOF_WAVEFORMATEX
    ensures channels < WORD_MODULUS ==> f.channels == channels
    // a larger count keeps only its low 16 bits
    ensures (channels - f.channels) % WORD_MODULUS == 0
    // a frame is exactly bitsPerSample bits per channel
    ensures f.channels < 0x4000 ==> f.blockAlign * 8 == f.bitsPerSample * f.channels
    ensures 0 < channels < 0x4000 ==> f.blockAlign > 0
    // one second of audio, unless the DWORD product wraps
    ensures rate * f.blockAlign < DWORD_MODULUS ==> f.avgBytesPerSec == rate * f.blockAlign
  {
    var bits := SampleBits(t);
    var nChannels := ToWord(channels);
    var blockAlign := FrameBytes(bits, nChannels);
    WaveFormatEx(FormatTag(t), nChannels, rate, BytesPerSecond(rate, blockAlign), blockAlign, bits, SIZEOF_WAVEFORMATEX)
  }

  /** wFormatTag: IEEE float for float devices, PCM for every other type. */
  function FormatTag(t: DevFmtType): u16
  {
    if t == DevFmtFloat then WAVE_FORMAT_IEEE_FLOAT else WAVE_FORMAT_PCM
  }

  /** wBitsPerSample: 32 for float, 8 for either 8-bit type, 16 otherwise. */
  function SampleBits(t: DevFmtType): (bits: u16)
    ensures bits == 8 || bits == 16 || bits == 32
  {
    if t == DevFmtFloat then 32
    else if t == DevFmtUByte || t == DevFmtByte then 8
    else 16
  }

  /** nBlockAlign: bits*channels/8, stored in a WORD. */
  function FrameBytes(bits: u16, channels: u16): (r: u16)
    requires bits == 8 || bits == 16 || bits == 32
    ensures channels < 0x4000 ==> r * 8 == bits * channels
    ensures 0 < channels < 0x4000 ==> r > 0
  {
    BlockAlignExact(bits, channels);
    ToWord(bits * channels / 8)
  }

  /** nAvgBytesPerSec: rate*blockAlign, stored in a DWORD. */
  function BytesPerSecond(rate: u32, blockAlign: u16): (r: u32)
    ensures rate * blockAlign < DWORD_MODULUS ==> r == rate * blockAlign
  {
    ToDword(rate * blockAlign)
  }

  /** For the three sample depths open uses, bits*channels/8 loses nothing
      and fits in a WORD while the channel count is below 0x4000. */
  lemma BlockAlignExact(bits: nat, channels: nat)
    requires bits == 8 || bits == 16 || bits == 32
    ensures channels < 0x4000 ==> bits * channels / 8 < WORD_MODULUS
    ensures channels < 0x4000 ==> bits * channels / 8 * 8 == bits * channels
    ensures 0 < channels ==> bits * channels / 8 > 0
  {
    if bits == 8 {
      assert bits * channels / 8 == channels;
    } else if bits == 16 {
      assert bits * channels / 8 == 2 * channels;
    } else {
      assert bits * channels / 8 == 4 * channels;
    }
  }

  /** The sample type reset reads back from a granted format tag and depth,
      or None when the pair is one the engine cannot represent. */
  function GrantedSampleType(tag: u16, bits: u16): (r: Option<DevFmtType>)
    ensures r == Some(DevFmtFloat) <==> tag == WAVE_FORMAT_IEEE_FLOAT && bits == 32
    ensures r == Some(DevFmtShort) <==> tag == WAVE_FORMAT_PCM && bits == 16
    ensures r == Some(DevFmtUByte) <==> tag == WAVE_FORMAT_PCM && bits == 8
    ensures r.Some? ==> r.value in {DevFmtFloat, DevFmtShort, DevFmtUByte}
  {
    if tag == WAVE_FORMAT_IEEE_FLOAT then
      if bits == 32 then Some(DevFmtFloat) else None
    else if tag == WAVE_FORMAT_PCM then
      if bits == 16 then Some(DevFmtShort)
      else if bits == 8 then Some(DevFmtUByte)
      else None
    else None
  }

  /** The channel layout reset reads back from a granted channel count. */
  function GrantedChannels(n: u16): (r: Option<DevFmtChannels>)
    ensures r == Some(DevFmtStereo) <==> n == 2
    ensures r == Some(DevFmtMono) <==> n == 1
    ensures r.None? <==> n != 1 && n != 2
  {
    if n == 2 then Some(DevFmtStereo)
    else if n == 1 then Some(DevFmtMono)
    else None
  }

  /** BytesFromDevFmt: the storage size of one sample of each type. */
  function SampleBytes(t: DevFmtType): (n: nat)
    ensures n == 1 || n == 2 || n == 4
  {
    match t
    case DevFmtByte | DevFmtUByte => 1
    case DevFmtShort | DevFmtUShort => 2
    case _ => 4
  }

  /** The sample type a device ends up with after an open followed by a
      reset: float stays float, both 8-bit types become unsigned, and every
      other type becomes signed 16-bit. */
  function Canonical(t: DevFmtType): DevFmtType
  {
    match t
    case DevFmtFloat => DevFmtFloat
    case DevFmtByte | DevFmtUByte => DevFmtUByte
    case _ => DevFmtShort
  }

  /** Reading back the format open derived always succeeds and gives the
      canonical type; in particular a signed 8-bit device comes back
      unsigned. */
  lemma DeriveThenGrantedRoundTrip(t: DevFmtType, channels: u32, rate: u32)
    ensures var f := DeriveFormat(t, channels, rate);
      GrantedSampleType(f.formatTag, f.bitsPerSample) == Some(Canonical(t))
  {
  }

  /** No granted format is ever read back as signed 8-bit. */
  lemma GrantedNeverSignedByte(tag: u16, bits: u16)
    ensures GrantedSampleType(tag, bits) != Some(DevFmtByte)
  {
  }

  /** Deriving again from the canonical type gives the same wire format, so
      a second open/reset cycle is stable. */
  lemma CanonicalRederivesSameFormat(t: DevFmtType, channels: u32, rate: u32)
    ensures DeriveFormat(Canonical(t), channels, rate) == DeriveFormat(t, channels, rate)
    ensures Canonical(Canonical(t)) == Canonical(t)
  {
  }

  /** Channel counts read back the same way open wrote them, for the two
      layouts this backend supports. */
  lemma DeriveThenGrantedChannels(t: DevFmtType, channels: u32, rate: u32)
    ensures var f := DeriveFormat(t, channels, rate);
      && (channels == 1 ==> GrantedChannels(f.channels) == Some(DevFmtMono))
      && (channels == 2 ==> GrantedChannels(f.channels) == Some(DevFmtStereo))
      && (channels != 1 && channels != 2 && channels < WORD_MODULUS ==> GrantedChannels(f.channels).None?)
      // nChannels is a WORD: a count past 16 bits reads back as its low 16 bits
      && (GrantedChannels(f.channels) == Some(DevFmtMono) <==> channels % WORD_MODULUS == 1)
      && (GrantedChannels(f.channels) == Some(DevFmtStereo) <==> channels % WORD_MODULUS == 2)
  {
    var f := DeriveFormat(t, channels, rate);
    LowBits(channels, f.channels);
  }

  /** A WORD congruent to x modulo 2^16 is x's low 16 bits. */
  lemma LowBits(x: nat, r: u16)
    requires (x - r) % WORD_MODULUS == 0
    ensures r == x % WORD_MODULUS
  {
    var k := (x - r) / WORD_MODULUS;
    assert x == r + k * WORD_MODULUS;
  }
}
